=== FILE: README.md ===
# Plant tracker record engine, in Dafny

A model of the core of a houseplant tracker backend (Java, Spring, MongoDB).
Users register plants, keep a log of care events with photos, comment on
log entries and may make a plant public. The model covers:

- the plant record engine (`PlantService`): reads that recompute the
  watering-overdue flag, and the owner-only mutations create, update,
  delete, add log, add comment, delete log and water now;
- the decision rules of the plants controller: who may read a plant, and
  the checks, their order and the storage keys of the two photo-upload
  endpoints;
- registration and login in the users controller;
- the records `Plant`, `PlantLog` and `PlantComment` with their defaults.

Everything is a pure function over immutable datatypes. Java `null` is
`Option.None` for fields and lists, so "the logs list is never null" can be stated (list entries cannot be null; see "Left out"). A date is an
integer count of epoch days, an instant or a millisecond clock reading is an
integer, and "today", "now" and the upload's millisecond stamp are
parameters. The plants collection is a map from document id to record. Each
mutation returns a `Reply`: the value returned or the failure thrown, plus
the collection afterwards.

Files, one module each:

| file | module | contents |
|---|---|---|
| `wrappers.dfy` | `Wrappers` | `Option`, `Result`, failure kinds |
| `java_text.dfy` | `JavaText` | `String.trim()`, `isBlank()`, null-to-"null" concatenation, `Long.toString` and its parser |
| `plant_model.dfy` | `PlantModel` | the three records and their constructors |
| `overdue.dfy` | `Overdue` | `setOverdueFlag` and its properties |
| `plant_store.dfy` | `PlantStore` | the collection: `findById`, `findByOwnerUsername`, `save`, and the shape the engine keeps |
| `plant_service.dfy` | `PlantService` | the engine's operations |
| `service_properties.dfy` | `ServiceProperties` | properties across calls and operations |
| `upload_keys.dfy` | `UploadKeys` | the two upload key formats and a decoder for them |
| `plant_controller.dfy` | `PlantController` | read access and the upload endpoints |
| `user_controller.dfy` | `UserController` | register and login |

Some behaviours of the code may surprise a reader. The model keeps each of
them as the code has it:

- `updatePlant` does not copy `isPublic` from the payload, so the flag
  cannot be changed through an update.
- `addLogToPlant` keeps the comments list the payload carries. Only a null
  list is replaced by an empty one, so a new log need not start without comments.
- `addPlant` keeps the logs list the payload carries, so a stored log's
  comments list can be null. `addCommentToLog` copes with that case.
- `deleteLog` only removes the list entry. It does not delete the log's photo.
- `getPlantById` in the service has no visibility check. The controller adds it.
- `addPlant` checks only that the owner is not null or empty. A payload
  that carries the id of an existing document is saved under that id and
  replaces the document, whoever owned it
  (`ServiceProperties.AddPlantWithTakenIdReplacesRecord`).
- `addCommentToLog` stores the comment's username as the payload gives it. It is not set to the caller.
- In `uploadLogPhoto`, a missing plant throws inside the endpoint's `try`,
  so it is answered with 400, not 404.

## Model

| member | source | states |
|---|---|---|
| `JavaText.Trim` | src/main/java/com/example/planttracker/service/PlantService.java:96 | `trim()` removes exactly the leading and trailing runs of characters <= U+0020: what it keeps is a slice of the input, everything before and after the slice is <= U+0020, and the slice neither starts nor ends with such a character; it is empty exactly when every character is <= U+0020, so a note of spaces and tabs is missing text |
| `JavaText.KeepsSliceOfSuffix` | src/main/java/com/example/planttracker/service/PlantService.java:96 | dropping a run of characters <= U+0020 from the front and then from the back keeps one slice of the input and drops only characters <= U+0020 around it |
| `JavaText.DecimalString` | src/main/java/com/example/planttracker/controller/PlantController.java:142 | the rendered stamp is a '-' exactly when the stamp is negative, followed by digits without leading zeros whose decimal value is the stamp's magnitude |
| `JavaText.NegativeThenDashRoundTrip` | src/main/java/com/example/planttracker/controller/PlantController.java:142 | a negative stamp, a '-' and the rest read back to that stamp and that rest |
| `JavaText.NonNegativeThenDashRoundTrip` | src/main/java/com/example/planttracker/controller/PlantController.java:142 | a stamp of zero or more, a '-' and the rest read back to that stamp and that rest |
| `JavaText.ParseLongThenDashRoundTrip` | src/main/java/com/example/planttracker/controller/PlantController.java:142 | the `<millis>-<rest>` part of a key reads back to the same millisecond count (negative too) and the same rest |
| `PlantModel.NewPlant` | src/main/java/com/example/planttracker/model/Plant.java:13-35 | a new plant has an empty, non-null logs list, `overdue` and `isPublic` false, frequency 0 and null id, owner and watering date |
| `PlantModel.NewPlantLog` | src/main/java/com/example/planttracker/model/PlantLog.java:8-11 | a new log has an empty, non-null comments list and null photo, note and timestamp |
| `Overdue.SetOverdueFlag` | src/main/java/com/example/planttracker/service/PlantService.java:39-46 | overdue holds iff a watering date is present, the interval is positive and more days than the interval have passed since that date; no other field changes |
| `Overdue.DueDateBoundary` | src/main/java/com/example/planttracker/service/PlantService.java:41-42 | the next watering date itself is not overdue; the day after it is |
| `Overdue.OverdueIsMonotone` | src/main/java/com/example/planttracker/service/PlantService.java:39-46 | once overdue, a plant stays overdue on every later day |
| `Overdue.WateredTodayIsNotOverdue` | src/main/java/com/example/planttracker/service/PlantService.java:155-156 | a plant whose watering date is today is not overdue, whatever its interval |
| `Overdue.OverdueIgnoresSuppliedFlag` | src/main/java/com/example/planttracker/service/PlantService.java:39-46 | the flag stored or sent by a client has no influence on the recomputed one |
| `Overdue.WeeklyScheduleExample` | src/main/java/com/example/planttracker/service/PlantService.java:39-46 | watered 2024-01-01 on a 7-day interval: not overdue on 2024-01-08, overdue on 2024-01-09 |
| `PlantStore.SaveThenFindById` | src/main/java/com/example/planttracker/service/PlantService.java:32-55 | the lookup that every read and mutation starts with (`findById`) finds, right after a save, exactly the record written under its id, and at every other id what it found before |
| `PlantStore.SaveThenFindByOwner` | src/main/java/com/example/planttracker/repository/PlantRepository.java:10 | after a save the owner query lists the written id under its new owner only, and every other id where it was |
| `PlantStore.Save` | src/main/java/com/example/planttracker/service/PlantService.java:55 | a record with an id is written under that id, inserting or replacing; one without gets a fresh id no record has; the record is written otherwise unchanged and no other record changes |
| `PlantService.GetPlantsByOwner` | src/main/java/com/example/planttracker/service/PlantService.java:24-28 | exactly the records of that owner are returned, each with its id and a recomputed overdue flag |
| `PlantService.GetPlantById` | src/main/java/com/example/planttracker/service/PlantService.java:31-36 | a missing id fails with "Plant not found"; a present one returns the stored record with its id and a recomputed flag |
| `PlantService.LoadOwned` | src/main/java/com/example/planttracker/service/PlantService.java:60-63 | the load-and-authorize step succeeds iff the record exists and its owner equals the caller; otherwise not-found comes before the null-owner error and the ownership refusal |
| `PlantService.AddPlant` | src/main/java/com/example/planttracker/service/PlantService.java:49-56 | fails, writing nothing, iff the owner is null or empty (a blank owner passes); otherwise saves the payload with a non-null logs list and a recomputed flag under its own or a fresh id |
| `PlantService.UpdatePlant` | src/main/java/com/example/planttracker/service/PlantService.java:59-79 | a non-owner or missing id fails with the store unchanged; the owner's update copies exactly the nine listed fields and keeps id, owner, visibility and logs |
| `PlantService.DeletePlant` | src/main/java/com/example/planttracker/service/PlantService.java:82-88 | a non-owner or missing id fails with the store unchanged; the owner's delete removes exactly that id and leaves every other record as it was |
| `PlantService.AddLogToPlant` | src/main/java/com/example/planttracker/service/PlantService.java:91-107 | succeeds iff the caller owns the plant and the note has a character above U+0020; then the earlier logs are kept as a prefix and one entry follows, stamped `now` with a non-null comments list; nothing else in the record changes |
| `PlantService.CommentedPlant` | src/main/java/com/example/planttracker/service/PlantService.java:124-130 | the accepted comment, stamped `now`, is appended to the addressed log's comments (a null list counts as empty); every other log and every other field of the record stay as they were, and the overdue flag is recomputed for today |
| `PlantService.AddCommentToLog` | src/main/java/com/example/planttracker/service/PlantService.java:110-131 | checks owner, then a negative index, then a null logs list (read only for a non-negative index), then an index past the end, then comment text, each failure leaving the store unchanged; it succeeds exactly when all three checks pass, and then only the addressed log's comments grow, by the comment stamped `now`, and the saved record carries the overdue flag recomputed for today |
| `PlantService.DeleteLog` | src/main/java/com/example/planttracker/service/PlantService.java:134-147 | after the owner check, a negative index fails before the logs list is read, then a null list and an index past the end fail, each with the store unchanged; otherwise the list loses one entry, earlier entries stay in place and later ones shift down by one, reinserting the removed entry restores it, and the overdue flag is recomputed for today |
| `PlantService.WaterPlant` | src/main/java/com/example/planttracker/service/PlantService.java:150-158 | the owner's watering sets the watering date to today and leaves the plant not overdue; everything else is unchanged |
| `ServiceProperties.UpdateKeepsInvariants` | src/main/java/com/example/planttracker/service/PlantService.java:59-79 | an update keeps every id with its owner; on a well-formed collection it keeps it well formed and fails only with not-found or forbidden |
| `ServiceProperties.DeleteKeepsInvariants` | src/main/java/com/example/planttracker/service/PlantService.java:82-88 | on a well-formed collection a delete keeps it well formed and fails only with not-found or forbidden |
| `ServiceProperties.AddLogKeepsInvariants` | src/main/java/com/example/planttracker/service/PlantService.java:91-107 | adding a log keeps every id with its owner; on a well-formed collection it keeps it well formed and raises no null-pointer failure |
| `ServiceProperties.AddCommentKeepsInvariants` | src/main/java/com/example/planttracker/service/PlantService.java:110-131 | adding a comment keeps every id with its owner; on a well-formed collection it keeps it well formed and raises no null-pointer failure |
| `ServiceProperties.DeleteLogKeepsInvariants` | src/main/java/com/example/planttracker/service/PlantService.java:134-147 | deleting a log keeps every id with its owner; on a well-formed collection it keeps it well formed and raises no null-pointer failure |
| `ServiceProperties.WaterKeepsInvariants` | src/main/java/com/example/planttracker/service/PlantService.java:150-158 | watering keeps every id with its owner; on a well-formed collection it keeps it well formed and fails only with not-found or forbidden |
| `ServiceProperties.MutationsPreserveWellFormed` | src/main/java/com/example/planttracker/service/PlantService.java:59-158 | every owner-only mutation keeps each record's id equal to its key, its owner non-empty and its logs list non-null |
| `ServiceProperties.AddPlantPreservesWellFormed` | src/main/java/com/example/planttracker/service/PlantService.java:49-56 | creating a plant keeps the store in that shape |
| `ServiceProperties.WellFormedStoreRaisesNoServerError` | src/main/java/com/example/planttracker/service/PlantService.java:59-158 | on such a store no mutation dereferences a null owner or a null logs list |
| `ServiceProperties.OwnershipIsImmutable` | src/main/java/com/example/planttracker/service/PlantService.java:59-158 | update, add log, add comment, delete log and water keep the same ids, each with the same owner |
| `ServiceProperties.UpdateIsIdempotent` | src/main/java/com/example/planttracker/service/PlantService.java:59-79 | repeating an update with the same payload on the same day changes nothing further |
| `ServiceProperties.WaterIsIdempotent` | src/main/java/com/example/planttracker/service/PlantService.java:150-158 | watering twice on a day equals watering once |
| `ServiceProperties.DeletingAppendedLogRestoresLogs` | src/main/java/com/example/planttracker/service/PlantService.java:91-147 | deleting a just-appended log at its index gives back the original list and record |
| `ServiceProperties.DeletingCommentedLogForgetsComment` | src/main/java/com/example/planttracker/service/PlantService.java:110-147 | the commented plant is the plant as loaded (flag recomputed) with only the addressed log replaced, and deleting that log afterwards gives the same reply and collection as deleting it without the comment |
| `ServiceProperties.AddPlantWithTakenIdReplacesRecord` | src/main/java/com/example/planttracker/service/PlantService.java:49-56 | a payload that carries an existing id replaces that record, owner included, without an ownership check |
| `ServiceProperties.OnlyOwnerMayUpdate` | src/main/java/com/example/planttracker/service/PlantService.java:59-63 | after "A" creates a plant, "B"'s update is forbidden and "A"'s succeeds |
| `PlantController.GetPlantById` | src/main/java/com/example/planttracker/controller/PlantController.java:48-70 | a missing plant is reported before visibility is checked; a found plant is returned iff the viewer is a real user equal to the owner or the plant is public, and is otherwise forbidden |
| `PlantController.NoUserSeesOnlyPublicPlants` | src/main/java/com/example/planttracker/controller/PlantController.java:55-62 | a viewer without identity (null, blank, "null", "undefined") sees a plant iff it exists and is public |
| `PlantController.SentinelViewerIsNotOwner` | src/main/java/com/example/planttracker/controller/PlantController.java:55-60 | a private plant whose owner is the string "null" is refused to a viewer sending "null" |
| `PlantController.NoUserExamples` | src/main/java/com/example/planttracker/controller/PlantController.java:55-58 | examples of viewer strings that do and do not count as no identity (an ideographic space does; a no-break space and "Null" do not) |
| `PlantController.Upload` | src/main/java/com/example/planttracker/controller/PlantController.java:144-150 | an issued upload answers 200 with the URL when the blob client returns one, and 400 when it throws |
| `PlantController.UploadPlantImage` | src/main/java/com/example/planttracker/controller/PlantController.java:132-151 | with no bucket the answer is 500 and nothing is uploaded; otherwise one upload is issued under `plants/<id>/<millis>-<filename>`, which reads back to those parts; no ownership check |
| `PlantController.UploadLogPhoto` | src/main/java/com/example/planttracker/controller/PlantController.java:155-183 | an upload is issued iff the caller owns the plant and a bucket is set; a non-owner gets 403 whatever the bucket, the owner without a bucket 500, the owner whose upload the blob client refuses 400, a missing plant 400; the key is `plants/<id>/logs/<millis>-<filename>` |
| `UploadKeys.EncodeKey` | src/main/java/com/example/planttracker/controller/PlantController.java:142-174 | every upload key lies under the `plants/` prefix |
| `UploadKeys.DecodeKey` | src/main/java/com/example/planttracker/controller/PlantController.java:142-174 | a key that reads back lies under `plants/`, and the id read back contains no '/' |
| `UploadKeys.DecodeAfterId` | src/main/java/com/example/planttracker/controller/PlantController.java:142-174 | the part after the id reads back as a log photo exactly when it starts with `logs/`, and keeps the id |
| `UploadKeys.DecodeEncode` | src/main/java/com/example/planttracker/controller/PlantController.java:142-174 | both key formats read back to the upload kind, id, millis and filename they were built from, when the id has no '/' |
| `UploadKeys.DecodeLogPhotoTail` | src/main/java/com/example/planttracker/controller/PlantController.java:173-174 | the part of a log-photo key after the id reads back to its millis and filename |
| `UploadKeys.DecodePlantImageTail` | src/main/java/com/example/planttracker/controller/PlantController.java:142 | the part of a plant-image key after the id cannot be mistaken for a log photo and reads back to its millis and filename |
| `UploadKeys.EncodeKeyIsInjective` | src/main/java/com/example/planttracker/controller/PlantController.java:142-174 | two uploads with '/'-free ids get the same key only if they are the same upload |
| `UploadKeys.SlashInIdMakesKeysCollide` | src/main/java/com/example/planttracker/controller/PlantController.java:142-174 | with a '/' in the id a plant-image key can equal a log-photo key of another id |
| `UserController.Register` | src/main/java/com/example/planttracker/controller/UserController.java:24-31 | a taken username fails with the store unchanged; a fresh one is added, returned, and no other record changes |
| `UserController.Login` | src/main/java/com/example/planttracker/controller/UserController.java:37-46 | succeeds with the stored record iff the username is known and its stored password equals the supplied one; unknown name and wrong password give the same failure; a stored null password is a null-pointer failure; the result carries no store, so login writes nothing |
| `UserController.RegisterPreservesWellFormed` | src/main/java/com/example/planttracker/controller/UserController.java:26-30 | registration keeps each record filed under its own username |
| `UserController.RegisterThenLogin` | src/main/java/com/example/planttracker/controller/UserController.java:24-46 | a fresh user with a password can log in right after registering and gets their record back |
| `UserController.LoginReturnsOwnRecord` | src/main/java/com/example/planttracker/controller/UserController.java:38-42 | a successful login returns the record of the username supplied |

## Left out

- `getPublicPlants`: the controller calls it, but the service that defines it is not part of this model.
- Parsing a stored photo URL back into bucket and key, and deleting a log's photo when the log is deleted: this code revision does neither.
- The blob client (`S3Service`): building the client from environment variables, streaming the upload and composing the URL are I/O against a library. The client's outcome is a parameter of the upload endpoints: the URL, or nothing when it throws.
- The repository: query derivation and id generation belong to MongoDB. `save` of a record without an id uses a fresh id that is passed in, with the condition that no record has it yet.
- Clocks: `LocalDate.now()`, `Instant.now()` and `System.currentTimeMillis()` are parameters. The code may read the date up to three times in one call: `waterPlant` reads it at the load, for the new watering date and at the final recompute. The model uses one date per call, so a call that straddles midnight is not modelled.
- HTTP plumbing: annotations, CORS, response bodies and the mapping of service exceptions to status codes. Failures keep a kind and the message the code throws.
- Null-pointer failures are a `ServerError` with a fixed message, not the runtime's generated message.
- The controller endpoints that only delegate to the service (list, create, update, delete, add log, add comment, delete log) are modelled through the service functions they call.
- Getters and setters of `Plant`, `PlantLog` and `PlantComment`: a getter is Dafny field selection and a setter is datatype update (`p.(isPublic := b)`). By the language's semantics, reading a field back after an update gives the value written, and the update changes no other field. No separate member restates this.
- Concurrency: concurrent requests on one plant race read-modify-write, last writer wins. Each call is modelled as one atomic step.
- In-place mutation: the service edits the object the repository returned and saves it. The model builds a new record and writes it back.
- Date range: `LocalDate.plusDays` throws outside years -999999999..999999999. Epoch days here are unbounded integers.
- Integer widths: `wateringFrequencyDays` is a Java `int` and the millisecond stamp a `long`. Neither is used in arithmetic that could wrap, so both are unbounded integers.
- `Character.isWhitespace` follows the current Unicode tables, where U+180E is not a space. Java runtimes on Unicode before 6.3 treat it as one.
- A null username in register or login: what a MongoDB lookup by a null name returns is the database's business. Usernames are non-null strings here.
- `User` has fields beyond username and password that the controller never reads. The model leaves them out.
- A null entry inside a logs or comments list is not modelled, because lists are sequences of records. `addPlant` can store one, and `addCommentToLog` at its index throws a NullPointerException (PlantService.java:125-126). For such a list the model's `AddCommentToLog` reports success instead.
- `GetPlantsByOwner`: returns a set. The order of the list the repository returns is not modelled.
- `UploadKeys.DecodeEncode`: holds only for ids without '/'. An id containing '/' can be stored through `addPlant`, but the upload endpoints cannot name it in their single `{id}` path segment, and `UploadKeys.SlashInIdMakesKeysCollide` shows why the condition is needed.

=== FILE: java_text.dfy ===
/**
 * The few `java.lang.String` behaviours the engine's decisions depend on:
 * `trim()`, `isBlank()`, string concatenation of a possibly-null reference,
 * and the decimal rendering of a `long`.
 */
module JavaText {
  import opened Wrappers

  // ---------------------------------------------------------------------
  // trim(): strips leading and trailing characters whose code is <= U+0020
  // ---------------------------------------------------------------------

  /** The characters `String.trim()` removes from either end. */
  predicate IsTrimmed(c: char) {
    c <= ' '
  }

  /** Drops the leading run of trimmable characters. */
  function TrimStart(s: string): (r: string)
    ensures |r| <= |s| && r == s[|s| - |r|..]
    ensures forall i :: 0 <= i < |s| - |r| ==> IsTrimmed(s[i])
    ensures |r| > 0 ==> !IsTrimmed(r[0])
    decreases |s|
  {
    if |s| > 0 && IsTrimmed(s[0]) then TrimStart(s[1..]) else s
  }

  /** Drops the trailing run of trimmable characters. */
  function TrimEnd(s: string): (r: string)
    ensures |r| <= |s| && r == s[..|r|]
    ensures forall i :: |r| <= i < |s| ==> IsTrimmed(s[i])
    ensures |r| > 0 ==> !IsTrimmed(r[|r| - 1])
    decreases |s|
  {
    if |s| > 0 && IsTrimmed(s[|s| - 1]) then TrimEnd(s[..|s| - 1]) else s
  }

  /** s[a..b] is s with only characters <= U+0020 removed before a and from b on. */
  predicate KeepsBetween(s: string, a: int, b: int) {
    && 0 <= a <= b <= |s|
    && (forall i :: 0 <= i < a ==> IsTrimmed(s[i]))
    && (forall i :: b <= i < |s| ==> IsTrimmed(s[i]))
  }

  /**
   * A trimmable prefix dropped from s, then a trimmable suffix dropped from
   * what is left, keep one slice of s with only trimmable characters around it.
   */
  lemma KeepsSliceOfSuffix(s: string, front: string, back: string)
    requires |front| <= |s| && front == s[|s| - |front|..]
    requires forall i :: 0 <= i < |s| - |front| ==> IsTrimmed(s[i])
    requires |back| <= |front| && back == front[..|back|]
    requires forall i :: |back| <= i < |front| ==> IsTrimmed(front[i])
    ensures var a := |s| - |front|;
      KeepsBetween(s, a, a + |back|) && back == s[a..a + |back|]
  {
    var a := |s| - |front|;
    assert back == s[a..a + |back|] by {
      assert back == s[a..][..|back|];
    }
    forall i | a + |back| <= i < |s| ensures IsTrimmed(s[i]) {
      assert s[i] == front[i - a];
    }
  }

  /**
   * `String.trim()`: the longest substring that neither starts nor ends with
   * a character <= U+0020. It is empty exactly when every character is such
   * a character, which is what the engine's `trim().isEmpty()` tests rely on.
   */
  function Trim(s: string): (r: string)
    ensures exists a, b :: KeepsBetween(s, a, b) && r == s[a..b]
    ensures |r| > 0 ==> !IsTrimmed(r[0]) && !IsTrimmed(r[|r| - 1])
    ensures |r| == 0 <==> forall i :: 0 <= i < |s| ==> IsTrimmed(s[i])
  {
    var front := TrimStart(s);
    var r := TrimEnd(front);
    KeepsSliceOfSuffix(s, front, r);
    // a kept first character survives TrimEnd, so r is empty only if front is
    assert |front| > 0 ==> !IsTrimmed(front[0]) && |r| > 0 && r[0] == front[0];
    r
  }

  /** `s.trim().isEmpty()` on a non-null `s`. */
  predicate IsTrimEmpty(s: string) {
    |Trim(s)| == 0
  }

  // ---------------------------------------------------------------------
  // isBlank(): every code point satisfies Character.isWhitespace
  // ---------------------------------------------------------------------

  /**
   * `Character.isWhitespace`: the Unicode space, line and paragraph separators
   * other than the no-break spaces U+00A0, U+2007 and U+202F, plus the
   * controls U+0009..U+000D and U+001C..U+001F.
   */
  predicate IsJavaWhitespace(c: char) {
    || ('\t' <= c <= '\r')
    || ('\U{1C}' <= c <= '\U{1F}')
    || c == ' '
    || c == '\U{1680}'
    || ('\U{2000}' <= c <= '\U{2006}')
    || ('\U{2008}' <= c <= '\U{200A}')
    || c == '\U{2028}'
    || c == '\U{2029}'
    || c == '\U{205F}'
    || c == '\U{3000}'
  }

  /** `String.isBlank()`: empty, or only whitespace code points. */
  predicate IsBlank(s: string) {
    forall i :: 0 <= i < |s| ==> IsJavaWhitespace(s[i])
  }

  // ---------------------------------------------------------------------
  // string concatenation
  // ---------------------------------------------------------------------

  /** What `"" + x` yields for a possibly-null `String x`: a null reference renders as "null". */
  function Render(x: Option<string>): (r: string)
  {
    match x
    case Some(v) => v
    case None => "null"
  }

  predicate IsDigit(c: char) {
    '0' <= c <= '9'
  }

  function DigitChar(d: nat): (c: char)
    requires d < 10
    ensures IsDigit(c)
  {
    ['0', '1', '2', '3', '4', '5', '6', '7', '8', '9'][d]
  }

  function DigitValue(c: char): (d: nat)
    requires IsDigit(c)
    ensures d < 10 && DigitChar(d) == c
  {
    (c as int - '0' as int) as nat
  }

  /** The decimal digits of a non-negative number, most significant first, no leading zeros. */
  function Digits(n: nat): (s: string)
    ensures |s| > 0
    ensures forall i :: 0 <= i < |s| ==> IsDigit(s[i])
    ensures |s| > 1 ==> s[0] != '0'
  {
    if n < 10 then [DigitChar(n)] else Digits(n / 10) + [DigitChar(n % 10)]
  }

  /** The value of a string of decimal digits. */
  function ParseDigits(s: string): (n: nat)
    requires forall i :: 0 <= i < |s| ==> IsDigit(s[i])
  {
    if |s| == 0 then 0 else 10 * ParseDigits(s[..|s| - 1]) + DigitValue(s[|s| - 1])
  }

  /** Parsing the digits of n gives back n. */
  lemma {:induction false} ParseDigitsOfDigits(n: nat)
    ensures ParseDigits(Digits(n)) == n
  {
    var s := Digits(n);
    if n < 10 {
      assert s[..0] == [];
    } else {
      var last := DigitChar(n % 10);
      assert s == Digits(n / 10) + [last];
      assert s[..|s| - 1] == Digits(n / 10) && s[|s| - 1] == last;
      assert DigitValue(last) == n % 10;
      ParseDigitsOfDigits(n / 10);
    }
  }

  /** `Long.toString(n)`: the digits of |n|, preceded by '-' when n is negative. */
  function DecimalString(n: int): (s: string)
    ensures n < 0 ==> |s| > 1 && s[0] == '-' && s[1..] == Digits(-n)
    ensures n >= 0 ==> s == Digits(n)
    // the digits after the optional sign are the magnitude of n
    ensures n >= 0 ==> ParseDigits(s) == n
    ensures n < 0 ==> ParseDigits(s[1..]) == -n
  {
    ParseDigitsOfDigits(if n < 0 then -n else n);
    if n < 0 then "-" + Digits(-n) else Digits(n)
  }

  /** The length of the leading run of decimal digits. */
  function SpanDigits(s: string): (n: nat)
    ensures n <= |s|
    ensures forall i :: 0 <= i < n ==> IsDigit(s[i])
    ensures n < |s| ==> !IsDigit(s[n])
  {
    if |s| > 0 && IsDigit(s[0]) then 1 + SpanDigits(s[1..]) else 0
  }

  /** The index of the first occurrence of c, if any. */
  function IndexOf(s: string, c: char): (r: Option<nat>)
    ensures r.Some? ==> r.value < |s| && s[r.value] == c && c !in s[..r.value]
    ensures r.None? ==> c !in s
  {
    if |s| == 0 then None
    else if s[0] == c then Some(0)
    else match IndexOf(s[1..], c)
      case None => None
      case Some(i) =>
        assert s[..i + 1] == [s[0]] + s[1..][..i];
        Some(i + 1)
  }

  /** The first occurrence of c in `a + [c] + b` is right after a when a does not contain c. */
  lemma {:induction false} IndexOfAfterPrefix(a: string, c: char, b: string)
    requires c !in a
    ensures IndexOf(a + [c] + b, c) == Some(|a|)
  {
    if |a| > 0 {
      assert (a + [c] + b)[1..] == a[1..] + [c] + b;
      assert a[0] in a;
      IndexOfAfterPrefix(a[1..], c, b);
    }
  }

  /** Parsing unsigned digits followed by '-' and a tail: the value of the digits and the tail. */
  function ParseUnsignedThenDash(body: string): (r: Option<(nat, string)>)
    ensures r.Some? ==> |r.value.1| < |body| && r.value.1 == body[|body| - |r.value.1|..]
  {
    var n := SpanDigits(body);
    if n == 0 || n == |body| || body[n] != '-' then None
    else Some((ParseDigits(body[..n]), body[n + 1..]))
  }

  /** Parsing a rendered long (optional '-' then digits) followed by '-' and a tail. */
  function ParseLongThenDash(s: string): (r: Option<(int, string)>)
    ensures r.Some? ==> |r.value.1| < |s|
    ensures r.Some? && r.value.0 < 0 ==> s[0] == '-'
  {
    if |s| > 0 && s[0] == '-' then
      match ParseUnsignedThenDash(s[1..])
      case None => None
      case Some(parsed) => Some((-(parsed.0 as int), parsed.1))
    else
      match ParseUnsignedThenDash(s)
      case None => None
      case Some(parsed) => Some((parsed.0 as int, parsed.1))
  }

  /** A digit run followed by a non-digit is consumed exactly. */
  lemma {:induction false} SpanDigitsOfDigitsThen(d: string, rest: string)
    requires forall i :: 0 <= i < |d| ==> IsDigit(d[i])
    requires |rest| > 0 && !IsDigit(rest[0])
    ensures SpanDigits(d + rest) == |d|
  {
    if |d| > 0 {
      assert (d + rest)[1..] == d[1..] + rest;
      SpanDigitsOfDigitsThen(d[1..], rest);
    } else {
      assert d + rest == rest;
    }
  }

  /** The unsigned part: digits, a dash and a tail parse back to the number and the tail. */
  lemma DigitsThenDash(m: nat, tail: string)
    ensures ParseUnsignedThenDash(Digits(m) + "-" + tail) == Some((m, tail))
  {
    var d := Digits(m);
    var body := d + "-" + tail;
    assert body == d + ("-" + tail);
    SpanDigitsOfDigitsThen(d, "-" + tail);
    assert body[..|d|] == d;
    assert body[|d|] == '-';
    assert body[|d| + 1..] == tail;
    ParseDigitsOfDigits(m);
  }

  /** A '-' before digits that parse is read as the sign of the number. */
  lemma SignThenUnsigned(body: string, v: nat, tail: string)
    requires ParseUnsignedThenDash(body) == Some((v, tail))
    ensures ParseLongThenDash("-" + body) == Some((-(v as int), tail))
  {
    assert ("-" + body)[1..] == body;
  }

  /**
   * Regrouping a concatenation of four strings, kept as a lemma of its own so
   * that the round-trip proof does not redo sequence extensionality.
   */
  lemma Regroup(x: string, y: string, z: string, w: string)
    ensures x + y + z + w == x + (y + z + w)
  {
  }

  /** A rendered negative long, a dash and a tail parse back to the long and the tail. */
  lemma NegativeThenDashRoundTrip(n: int, tail: string)
    requires n < 0
    ensures ParseLongThenDash(DecimalString(n) + "-" + tail) == Some((n, tail))
  {
    var m: nat := -n;
    var d := Digits(m);
    assert DecimalString(n) == "-" + d;
    Regroup("-", d, "-", tail);
    DigitsThenDash(m, tail);
    SignThenUnsigned(d + "-" + tail, m, tail);
  }

  /** A rendered non-negative long, a dash and a tail parse back to the long and the tail. */
  lemma NonNegativeThenDashRoundTrip(n: nat, tail: string)
    ensures ParseLongThenDash(DecimalString(n) + "-" + tail) == Some((n, tail))
  {
    var s := Digits(n) + "-" + tail;
    assert DecimalString(n) + "-" + tail == s;
    assert s[0] == Digits(n)[0];
    assert IsDigit(s[0]);
    DigitsThenDash(n, tail);
  }

  /** Rendering a long, then a dash and a tail, parses back to the long and the tail. */
  lemma ParseLongThenDashRoundTrip(n: int, tail: string)
    ensures ParseLongThenDash(DecimalString(n) + "-" + tail) == Some((n, tail))
  {
    if n < 0 {
      NegativeThenDashRoundTrip(n, tail);
    } else {
      NonNegativeThenDashRoundTrip(n, tail);
    }
  }
}

=== FILE: overdue.dfy ===
/**
 * The derived "watering overdue" flag. It depends only on the last watering
 * date, the watering interval and the current date; the value a client sends
 * in the `overdue` field is always overwritten.
 */
module Overdue {
  import opened Wrappers
  import opened PlantModel

  /** `lastWateredDate.plusDays(wateringFrequencyDays)`. */
  function NextWaterDate(lastWatered: EpochDay, frequencyDays: int): (r: EpochDay) {
    lastWatered + frequencyDays
  }

  /**
   * With no watering date or a non-positive interval the plant is never
   * overdue; otherwise it is overdue once today is strictly after the next
   * watering date.
   */
  function ComputeOverdue(lastWatered: Option<EpochDay>, frequencyDays: int, today: EpochDay): (r: bool)
    ensures r ==> lastWatered.Some? && frequencyDays > 0 && today > lastWatered.value
  {
    if lastWatered.Some? && frequencyDays > 0 then
      today > NextWaterDate(lastWatered.value, frequencyDays)
    else
      false
  }

  /** The service's `setOverdueFlag`: recomputes `overdue` and touches no other field. */
  function SetOverdueFlag(p: Plant, today: EpochDay): (r: Plant)
    ensures r.overdue <==>
      && p.lastWateredDate.Some?
      && p.wateringFrequencyDays > 0
      && today - p.lastWateredDate.value > p.wateringFrequencyDays
    ensures r.(overdue := p.overdue) == p
  {
    p.(overdue := ComputeOverdue(p.lastWateredDate, p.wateringFrequencyDays, today))
  }

  /** The due date itself is not overdue; the day after it is. */
  lemma DueDateBoundary(lastWatered: EpochDay, frequencyDays: int)
    requires frequencyDays > 0
    ensures !ComputeOverdue(Some(lastWatered), frequencyDays, lastWatered + frequencyDays)
    ensures ComputeOverdue(Some(lastWatered), frequencyDays, lastWatered + frequencyDays + 1)
  {
  }

  /** Once overdue, a plant stays overdue as days pass without a watering. */
  lemma OverdueIsMonotone(lastWatered: Option<EpochDay>, frequencyDays: int, today: EpochDay, later: EpochDay)
    requires today <= later
    requires ComputeOverdue(lastWatered, frequencyDays, today)
    ensures ComputeOverdue(lastWatered, frequencyDays, later)
  {
  }

  /** A plant watered today is not overdue, whatever its interval. */
  lemma WateredTodayIsNotOverdue(frequencyDays: int, today: EpochDay)
    ensures !ComputeOverdue(Some(today), frequencyDays, today)
  {
  }

  /** The stored or client-supplied flag has no influence on the recomputed one. */
  lemma OverdueIgnoresSuppliedFlag(p: Plant, supplied: bool, today: EpochDay)
    ensures SetOverdueFlag(p.(overdue := supplied), today) == SetOverdueFlag(p, today)
  {
  }

  /**
   * Watered 2024-01-01 (epoch day 19723) with a 7-day interval: not overdue on
   * 2024-01-08 (day 19730), overdue on 2024-01-09 (day 19731).
   */
  lemma WeeklyScheduleExample()
    ensures !ComputeOverdue(Some(19723), 7, 19730)
    ensures ComputeOverdue(Some(19723), 7, 19731)
  {
  }
}

=== FILE: plant_controller.dfy ===
/**
 * The decision rules of the plants HTTP controller: who may read a plant,
 * and the checks and storage keys of the two upload endpoints. The blob
 * upload itself is not modelled: its outcome is a parameter, and the reply
 * records which upload, if any, the endpoint asked for.
 */
module PlantController {
  import opened Wrappers
  import opened PlantModel
  import opened PlantStore
  import opened JavaText
  import opened UploadKeys
  import PlantService

  // ---------------------------------------------------------------------
  // read access
  // ---------------------------------------------------------------------

  /**
   * The viewer supplied no identity: no parameter, a blank one, or the
   * strings "null" and "undefined" a browser client sends for a missing value.
   */
  predicate IsNoUser(username: Option<string>) {
    || username.None?
    || IsBlank(username.value)
    || username.value == "null"
    || username.value == "undefined"
  }

  const PrivatePlant := Failure(Forbidden, "This plant is private.")

  /**
   * `GET /api/plants/{id}`: a missing plant is reported before visibility is
   * considered; a found plant is returned to its owner, or to anyone when it
   * is public, and is otherwise forbidden.
   */
  function GetPlantById(s: Store, id: PlantId, username: Option<string>, today: EpochDay): (r: Result<Plant>)
    ensures id !in s ==> r == Err(PlantService.PlantNotFound)
    ensures id in s ==>
      (r.Ok? <==> (!IsNoUser(username) && username == s[id].ownerUsername) || s[id].isPublic)
    ensures id in s && r.Err? ==> r.failure == PrivatePlant
    ensures r.Ok? ==> r == PlantService.GetPlantById(s, id, today)
  {
    match PlantService.GetPlantById(s, id, today)
    case Err(f) => Err(f)
    case Ok(plant) =>
      var noUser := IsNoUser(username);
      var isOwner := !noUser && username == plant.ownerUsername;
      if isOwner || plant.isPublic then Ok(plant) else Err(PrivatePlant)
  }

  /** Without an identity only public plants are visible, even a plant whose owner is literally "null". */
  lemma NoUserSeesOnlyPublicPlants(s: Store, id: PlantId, username: Option<string>, today: EpochDay)
    requires IsNoUser(username)
    ensures GetPlantById(s, id, username, today).Ok? <==> id in s && s[id].isPublic
  {
  }

  /** A private plant owned by "null" is not shown to a viewer who sends "null". */
  lemma SentinelViewerIsNotOwner(s: Store, id: PlantId, today: EpochDay)
    requires id in s && s[id].ownerUsername == Some("null") && !s[id].isPublic
    ensures GetPlantById(s, id, Some("null"), today) == Err(PrivatePlant)
  {
    assert IsNoUser(Some("null"));
  }

  /** Which viewer strings count as "no identity". */
  lemma NoUserExamples()
    ensures IsNoUser(None) && IsNoUser(Some("")) && IsNoUser(Some(" \t\n"))
    ensures IsNoUser(Some("null")) && IsNoUser(Some("undefined")) && IsNoUser(Some("\U{3000}"))
    ensures !IsNoUser(Some("alice")) && !IsNoUser(Some("Null")) && !IsNoUser(Some("\U{A0}"))
  {
    assert "alice"[0] == 'a';
    assert "Null"[0] == 'N';
    assert !IsJavaWhitespace("\U{A0}"[0]);
  }

  // ---------------------------------------------------------------------
  // uploads
  // ---------------------------------------------------------------------

  datatype HttpStatus = Ok200 | BadRequest400 | Forbidden403 | InternalServerError500

  /** An upload request to the blob store. */
  datatype PutObject = PutObject(bucket: string, key: string)

  /** The endpoint's status, the URL it returns on success, and the upload it issued, if any. */
  datatype UploadReply = UploadReply(status: HttpStatus, url: Option<string>, put: Option<PutObject>)

  /**
   * Issues the upload of `key` to `bucket`. `uploaded` is what the blob
   * client returns when called: the object's URL, or `None` when it throws,
   * which the endpoint reports as a bad request.
   */
  function Upload(bucket: string, key: string, uploaded: Option<string>): (r: UploadReply)
    ensures r.put == Some(PutObject(bucket, key))
    ensures r.status == Ok200 <==> uploaded.Some?
    ensures r.status != Ok200 ==> r.status == BadRequest400
    ensures r.url == uploaded
  {
    match uploaded
    case Some(url) => UploadReply(Ok200, Some(url), Some(PutObject(bucket, key)))
    case None => UploadReply(BadRequest400, None, Some(PutObject(bucket, key)))
  }

  /** A key built from an id without '/' reads back as the upload it names. */
  lemma KeyReadsBack(k: UploadKey)
    ensures '/' !in k.plantId ==> DecodeKey(EncodeKey(k)) == Some(k)
  {
    if '/' !in k.plantId {
      DecodeEncode(k);
    }
  }

  /**
   * `POST /api/plants/{id}/upload`: with no bucket configured it answers 500
   * and uploads nothing; otherwise it uploads under
   * `plants/<id>/<millis>-<filename>`. It checks no ownership.
   */
  function UploadPlantImage(
    bucket: Option<string>, id: string, millis: int, filename: Option<string>, uploaded: Option<string>)
    : (r: UploadReply)
    ensures r.put.Some? <==> bucket.Some?
    ensures bucket.None? ==> r.status == InternalServerError500
    ensures r.status == Ok200 <==> bucket.Some? && uploaded.Some?
    ensures r.status == Ok200 ==> r.url == uploaded
    ensures bucket.Some? && uploaded.None? ==> r.status == BadRequest400
    ensures r.put.Some? ==>
      && r.put.value.bucket == bucket.value
      && r.put.value.key == EncodeKey(PlantImageKey(id, millis, Render(filename)))
      && ('/' !in id ==> DecodeKey(r.put.value.key) == Some(PlantImageKey(id, millis, Render(filename))))
  {
    if bucket.None? then
      UploadReply(InternalServerError500, None, None)
    else
      var key := "plants/" + id + "/" + DecimalString(millis) + "-" + Render(filename);
      KeyReadsBack(PlantImageKey(id, millis, Render(filename)));
      Upload(bucket.value, key, uploaded)
  }

  /**
   * `POST /api/plants/{id}/logs/upload`: loads the plant, answers 403 to
   * anyone but its owner, then 500 when no bucket is configured, and only
   * then uploads under `plants/<id>/logs/<millis>-<filename>`. Every
   * exception, a missing plant included, is answered with 400.
   */
  function UploadLogPhoto(
    s: Store, id: PlantId, username: string, bucket: Option<string>, millis: int,
    filename: Option<string>, uploaded: Option<string>)
    : (r: UploadReply)
    ensures r.put.Some? <==> PlantService.Authorized(s, id, username) && bucket.Some?
    ensures id !in s ==> r.status == BadRequest400
    ensures id in s && s[id].ownerUsername.None? ==> r.status == BadRequest400
    ensures id in s && s[id].ownerUsername.Some? && s[id].ownerUsername.value != username ==>
      r.status == Forbidden403
    ensures PlantService.Authorized(s, id, username) && bucket.None? ==> r.status == InternalServerError500
    ensures PlantService.Authorized(s, id, username) && bucket.Some? && uploaded.None? ==>
      r.status == BadRequest400
    ensures r.status == Ok200 <==> PlantService.Authorized(s, id, username) && bucket.Some? && uploaded.Some?
    ensures r.status == Ok200 ==> r.url == uploaded
    ensures r.put.Some? ==>
      && r.put.value.bucket == bucket.value
      && r.put.value.key == EncodeKey(LogPhotoKey(id, millis, Render(filename)))
      && ('/' !in id ==> DecodeKey(r.put.value.key) == Some(LogPhotoKey(id, millis, Render(filename))))
  {
    // `plantService.getPlantById` also recomputes the overdue flag, which this endpoint discards
    match FindById(s, id)
    case None => UploadReply(BadRequest400, None, None)
    case Some(plant) =>
      if plant.ownerUsername.None? then UploadReply(BadRequest400, None, None)
      else if plant.ownerUsername.value != username then UploadReply(Forbidden403, None, None)
      else if bucket.None? then UploadReply(InternalServerError500, None, None)
      else
        var key := "plants/" + id + "/logs/" + DecimalString(millis) + "-" + Render(filename);
        KeyReadsBack(LogPhotoKey(id, millis, Render(filename)));
        Upload(bucket.value, key, uploaded)
  }
}

=== FILE: plant_model.dfy ===
/**
 * The persisted records: a Plant owns an ordered sequence of PlantLog entries,
 * and each PlantLog owns an ordered sequence of PlantComment entries.
 *
 * Every Java reference field may be null, so it is an `Option`; `None` is
 * null. Java getters and setters are Dafny field selection and datatype
 * update (`p.(isPublic := b)`).
 */
module PlantModel {
  import opened Wrappers

  /** A nullable `String` field. */
  type Text = Option<string>

  /** A `java.time.LocalDate`, as the number of days since 1970-01-01. */
  type EpochDay = int

  /** A `java.time.Instant`, as a count of ticks since the epoch. */
  type Instant = int

  datatype PlantComment = PlantComment(
    username: Text,
    comment: Text,
    timestamp: Option<Instant>)

  datatype PlantLog = PlantLog(
    photoUrl: Text,
    note: Text,
    timestamp: Option<Instant>,
    comments: Option<seq<PlantComment>>)

  datatype Plant = Plant(
    id: Text,
    name: Text,
    species: Text,
    ownerUsername: Text,
    lastWateredDate: Option<EpochDay>,
    wateringFrequencyDays: int,
    soilType: Text,
    fertilizer: Text,
    sunExposure: Text,
    idealTemperature: Text,
    notes: Text,
    logs: Option<seq<PlantLog>>,
    overdue: bool,
    isPublic: bool)

  /** `new Plant()`: every reference null except the logs list, which starts empty; numbers and flags zero. */
  function NewPlant(): (p: Plant)
    ensures p.logs == Some([])
    ensures !p.overdue && !p.isPublic && p.wateringFrequencyDays == 0
    ensures p.id.None? && p.ownerUsername.None? && p.lastWateredDate.None?
  {
    Plant(None, None, None, None, None, 0, None, None, None, None, None, Some([]), false, false)
  }

  /** `new PlantLog()`: the comments list starts empty, everything else null. */
  function NewPlantLog(): (l: PlantLog)
    ensures l.comments == Some([])
    ensures l.photoUrl.None? && l.note.None? && l.timestamp.None?
  {
    PlantLog(None, None, None, Some([]))
  }

  /** The `if (xs == null) xs = new ArrayList<>()` idiom: a null list reads as empty. */
  function OrEmpty<T>(xs: Option<seq<T>>): (r: seq<T>) {
    match xs
    case Some(v) => v
    case None => []
  }
}

=== FILE: plant_service.dfy ===
/**
 * The plant record engine: reads recompute the overdue flag; every mutation
 * loads the record, checks that the caller is its current owner, applies a
 * pure change, recomputes the overdue flag and writes the record back.
 * A failure at any step leaves the store as it was.
 */
module PlantService {
  import opened Wrappers
  import opened PlantModel
  import opened Overdue
  import opened PlantStore
  import opened JavaText

  /** A mutation's outcome: what it returns or throws, and the store afterwards. */
  datatype Reply<T> = Reply(result: Result<T>, store: Store)

  const PlantNotFound := Failure(NotFound, "Plant not found")
  /** `existing.getOwnerUsername().equals(..)` on a record whose owner is null. */
  const NullOwner := Failure(ServerError, "NullPointerException")
  /** `plant.getLogs().size()` on a record whose logs list is null. */
  const NullLogs := Failure(ServerError, "NullPointerException")
  const MissingOwner := Failure(InvalidInput, "Plant must have an ownerUsername")
  const MissingNote := Failure(InvalidInput, "Log must have a note")
  const BadLogIndex := Failure(InvalidInput, "Invalid log index")
  const MissingCommentText := Failure(InvalidInput, "Comment must have text")

  const UpdateDenied := "You can only update your own plants"
  const DeleteDenied := "You can only delete your own plants"
  const AddLogDenied := "You can only add logs to your own plants"
  const CommentDenied := "You can only comment on your own plants' logs"
  const DeleteLogDenied := "You can only delete your own logs"
  const WaterDenied := "You can only water your own plants"

  predicate IsOwner(p: Plant, caller: string) {
    p.ownerUsername == Some(caller)
  }

  /** The caller may mutate the record stored under id. */
  predicate Authorized(s: Store, id: PlantId, caller: string) {
    id in s && IsOwner(s[id], caller)
  }

  /**
   * What an unauthorized mutation throws: a missing id is reported first,
   * then a null owner, then an owner different from the caller.
   */
  function AuthFailure(s: Store, id: PlantId, denial: string): Failure {
    if id !in s then PlantNotFound
    else if s[id].ownerUsername.None? then NullOwner
    else Failure(Forbidden, denial)
  }

  /** A comment or note that `x == null || x.trim().isEmpty()` rejects. */
  predicate IsMissingText(x: Text) {
    x.None? || IsTrimEmpty(x.value)
  }

  // ---------------------------------------------------------------------
  // reads
  // ---------------------------------------------------------------------

  /** `getPlantsByOwner`: every record of that owner, each with its overdue flag recomputed. */
  function GetPlantsByOwner(s: Store, owner: string, today: EpochDay): (r: set<Plant>)
    ensures forall p :: p in r ==>
      && p.ownerUsername == Some(owner)
      && p.id.Some? && p.id.value in s
      && p == SetOverdueFlag(s[p.id.value].(id := p.id), today)
    ensures forall k :: k in s && s[k].ownerUsername == Some(owner) ==>
      SetOverdueFlag(s[k].(id := Some(k)), today) in r
  {
    set k | k in FindByOwnerUsername(s, owner) :: SetOverdueFlag(s[k].(id := Some(k)), today)
  }

  /** `getPlantById`: the stored record with its overdue flag recomputed, or "Plant not found". */
  function GetPlantById(s: Store, id: PlantId, today: EpochDay): (r: Result<Plant>)
    ensures id !in s ==> r == Err(PlantNotFound)
    ensures id in s ==> r.Ok?
    ensures r.Ok? ==>
      && r.value.id == Some(id)
      && r.value.(id := s[id].id, overdue := s[id].overdue) == s[id]
      && r.value.overdue == ComputeOverdue(s[id].lastWateredDate, s[id].wateringFrequencyDays, today)
  {
    match FindById(s, id)
    case None => Err(PlantNotFound)
    case Some(p) => Ok(SetOverdueFlag(p, today))
  }

  /** The load-and-authorize prefix shared by every owner-only mutation. */
  function LoadOwned(s: Store, id: PlantId, caller: string, today: EpochDay, denial: string): (r: Result<Plant>)
    ensures r.Ok? <==> Authorized(s, id, caller)
    ensures r.Err? ==> r.failure == AuthFailure(s, id, denial)
    ensures r.Ok? ==> r == GetPlantById(s, id, today)
  {
    match GetPlantById(s, id, today)
    case Err(f) => Err(f)
    case Ok(p) =>
      if p.ownerUsername.None? then Err(NullOwner)
      else if p.ownerUsername.value != caller then Err(Failure(Forbidden, denial))
      else Ok(p)
  }

  // ---------------------------------------------------------------------
  // mutations
  // ---------------------------------------------------------------------

  /**
   * `addPlant`: refuses a null or empty owner (a blank one is accepted);
   * otherwise defaults a null logs list to empty, recomputes the flag and
   * saves. A payload that carries an id is saved under that id.
   */
  function AddPlant(s: Store, plant: Plant, today: EpochDay, freshId: PlantId): (r: Reply<Plant>)
    requires plant.id.None? ==> freshId !in s
    ensures r.result.Err? <==> plant.ownerUsername.None? || plant.ownerUsername.value == ""
    ensures r.result.Err? ==> r == Reply(Err(MissingOwner), s)
    ensures r.result.Ok? ==>
      var p := r.result.value;
      && p.id.Some? && r.store == s[p.id.value := p]
      && (plant.id.Some? ==> p.id == plant.id)
      && (plant.id.None? ==> p.id.value !in s)
      && p.logs == Some(OrEmpty(plant.logs))
      && p.overdue == ComputeOverdue(plant.lastWateredDate, plant.wateringFrequencyDays, today)
      && p.(id := plant.id, logs := plant.logs, overdue := plant.overdue) == plant
  {
    if plant.ownerUsername.None? || |plant.ownerUsername.value| == 0 then
      Reply(Err(MissingOwner), s)
    else
      var prepared := SetOverdueFlag(plant.(logs := Some(OrEmpty(plant.logs))), today);
      var saved := Save(s, prepared, freshId);
      Reply(Ok(saved.plant), saved.store)
  }

  /**
   * `updatePlant`: the owner overwrites name, species, watering schedule,
   * soil, fertilizer, sun exposure, temperature and notes from the payload.
   * Id, owner, logs and the visibility flag stay as stored.
   */
  function UpdatePlant(s: Store, id: PlantId, payload: Plant, caller: string, today: EpochDay): (r: Reply<Plant>)
    ensures !Authorized(s, id, caller) ==> r == Reply(Err(AuthFailure(s, id, UpdateDenied)), s)
    ensures Authorized(s, id, caller) ==> r.result.Ok? && r.store == s[id := r.result.value]
    ensures r.result.Ok? ==>
      var p, stored := r.result.value, s[id];
      // copied from the payload
      && p.name == payload.name
      && p.species == payload.species
      && p.lastWateredDate == payload.lastWateredDate
      && p.wateringFrequencyDays == payload.wateringFrequencyDays
      && p.soilType == payload.soilType
      && p.fertilizer == payload.fertilizer
      && p.sunExposure == payload.sunExposure
      && p.idealTemperature == payload.idealTemperature
      && p.notes == payload.notes
      // kept from the stored record
      && p.id == Some(id)
      && p.ownerUsername == stored.ownerUsername
      && p.isPublic == stored.isPublic
      && p.logs == Some(OrEmpty(stored.logs))
      // derived
      && p.overdue == ComputeOverdue(payload.lastWateredDate, payload.wateringFrequencyDays, today)
  {
    match LoadOwned(s, id, caller, today, UpdateDenied)
    case Err(f) => Reply(Err(f), s)
    case Ok(existing) =>
      var edited := existing.(
        name := payload.name,
        species := payload.species,
        lastWateredDate := payload.lastWateredDate,
        wateringFrequencyDays := payload.wateringFrequencyDays,
        soilType := payload.soilType,
        fertilizer := payload.fertilizer,
        sunExposure := payload.sunExposure,
        idealTemperature := payload.idealTemperature,
        notes := payload.notes);
      var p := SetOverdueFlag(edited.(logs := Some(OrEmpty(edited.logs))), today);
      // `save` of a loaded record writes it back under its own id
      Reply(Ok(p), s[id := p])
  }

  /** `deletePlant`: the owner removes the record, and only that record. */
  function DeletePlant(s: Store, id: PlantId, caller: string, today: EpochDay): (r: Reply<()>)
    ensures !Authorized(s, id, caller) ==> r == Reply(Err(AuthFailure(s, id, DeleteDenied)), s)
    ensures Authorized(s, id, caller) ==> r.result.Ok?
    ensures r.result.Ok? ==>
      && r.store.Keys == s.Keys - {id}
      && forall k :: k in r.store ==> r.store[k] == s[k]
  {
    match LoadOwned(s, id, caller, today, DeleteDenied)
    case Err(f) => Reply(Err(f), s)
    case Ok(_) => Reply(Ok(()), s - {id})
  }

  /**
   * `addLogToPlant`: the owner appends a log whose note is not blank after
   * trimming; the new entry is stamped with `now` and gets a non-null
   * comments list. Earlier entries are untouched.
   */
  function AddLogToPlant(s: Store, id: PlantId, newLog: PlantLog, caller: string, now: Instant, today: EpochDay)
    : (r: Reply<Plant>)
    ensures !Authorized(s, id, caller) ==> r == Reply(Err(AuthFailure(s, id, AddLogDenied)), s)
    ensures Authorized(s, id, caller) && IsMissingText(newLog.note) ==> r == Reply(Err(MissingNote), s)
    ensures r.result.Ok? <==>
      && Authorized(s, id, caller)
      && newLog.note.Some?
      && exists i :: 0 <= i < |newLog.note.value| && !IsTrimmed(newLog.note.value[i])
    ensures r.result.Ok? ==>
      var p, before := r.result.value, OrEmpty(s[id].logs);
      && r.store == s[id := p]
      && p.logs.Some? && |p.logs.value| == |before| + 1
      && p.logs.value[..|before|] == before
      && (var entry := p.logs.value[|before|];
          && entry.photoUrl == newLog.photoUrl
          && entry.note == newLog.note
          && entry.timestamp == Some(now)
          && entry.comments == Some(OrEmpty(newLog.comments)))
      // nothing else in the record changes
      && p.(id := s[id].id, logs := s[id].logs, overdue := s[id].overdue) == s[id]
      && p.overdue == ComputeOverdue(s[id].lastWateredDate, s[id].wateringFrequencyDays, today)
  {
    match LoadOwned(s, id, caller, today, AddLogDenied)
    case Err(f) => Reply(Err(f), s)
    case Ok(plant) =>
      if IsMissingText(newLog.note) then Reply(Err(MissingNote), s)
      else
        var entry := newLog.(comments := Some(OrEmpty(newLog.comments)), timestamp := Some(now));
        var p := SetOverdueFlag(plant.(logs := Some(OrEmpty(plant.logs) + [entry])), today);
        Reply(Ok(p), s[id := p])
  }

  /**
   * The edit `addCommentToLog` makes once its checks pass: the comment,
   * stamped with `now`, is appended to the comments of the log at
   * `logIndex` (a null list counts as empty); the other logs and fields
   * stay, and the overdue flag is recomputed.
   */
  function CommentedPlant(plant: Plant, logIndex: int, newComment: PlantComment, now: Instant, today: EpochDay)
    : (p: Plant)
    requires plant.logs.Some? && 0 <= logIndex < |plant.logs.value|
    ensures var before := plant.logs.value;
      && p.logs.Some? && |p.logs.value| == |before|
      && (forall j :: 0 <= j < |before| && j != logIndex ==> p.logs.value[j] == before[j])
      && (var target, edited := before[logIndex], p.logs.value[logIndex];
          && edited.(comments := target.comments) == target
          && edited.comments == Some(OrEmpty(target.comments) + [newComment.(timestamp := Some(now))]))
    ensures p.(logs := plant.logs, overdue := plant.overdue) == plant
    ensures p.overdue == ComputeOverdue(plant.lastWateredDate, plant.wateringFrequencyDays, today)
  {
    var logs := plant.logs.value;
    var target := logs[logIndex];
    var edited := target.(comments := Some(OrEmpty(target.comments) + [newComment.(timestamp := Some(now))]));
    SetOverdueFlag(plant.(logs := Some(logs[logIndex := edited])), today)
  }

  /**
   * `addCommentToLog`: checks, in order, ownership, `0 <= logIndex < |logs|`
   * and non-blank comment text; then appends the comment, stamped with `now`,
   * to the addressed log. The number of logs and every other log are unchanged.
   */
  function AddCommentToLog(
    s: Store, id: PlantId, logIndex: int, newComment: PlantComment, caller: string, now: Instant, today: EpochDay)
    : (r: Reply<Plant>)
    ensures !Authorized(s, id, caller) ==> r == Reply(Err(AuthFailure(s, id, CommentDenied)), s)
    ensures Authorized(s, id, caller) && logIndex < 0 ==> r == Reply(Err(BadLogIndex), s)
    ensures Authorized(s, id, caller) && logIndex >= 0 && s[id].logs.None? ==> r == Reply(Err(NullLogs), s)
    ensures Authorized(s, id, caller) && s[id].logs.Some? && !(0 <= logIndex < |s[id].logs.value|) ==>
      r == Reply(Err(BadLogIndex), s)
    ensures
      && Authorized(s, id, caller) && s[id].logs.Some? && 0 <= logIndex < |s[id].logs.value|
      && IsMissingText(newComment.comment)
      ==> r == Reply(Err(MissingCommentText), s)
    ensures r.result.Ok? <==>
      && Authorized(s, id, caller) && s[id].logs.Some? && 0 <= logIndex < |s[id].logs.value|
      && !IsMissingText(newComment.comment)
    ensures r.result.Ok? ==>
      var p, before := r.result.value, s[id].logs.value;
      && r.store == s[id := p]
      && p.logs.Some? && |p.logs.value| == |before|
      && (forall j :: 0 <= j < |before| && j != logIndex ==> p.logs.value[j] == before[j])
      && (var target, edited := before[logIndex], p.logs.value[logIndex];
          && edited.(comments := target.comments) == target
          && edited.comments == Some(OrEmpty(target.comments) + [newComment.(timestamp := Some(now))]))
      && p.(id := s[id].id, logs := s[id].logs, overdue := s[id].overdue) == s[id]
      && p.overdue == ComputeOverdue(s[id].lastWateredDate, s[id].wateringFrequencyDays, today)
  {
    match LoadOwned(s, id, caller, today, CommentDenied)
    case Err(f) => Reply(Err(f), s)
    case Ok(plant) =>
      // `logIndex < 0 || logIndex >= getLogs().size()` reads the list only for a non-negative index
      if logIndex < 0 then Reply(Err(BadLogIndex), s)
      else if plant.logs.None? then Reply(Err(NullLogs), s)
      else if logIndex >= |plant.logs.value| then Reply(Err(BadLogIndex), s)
      else if IsMissingText(newComment.comment) then Reply(Err(MissingCommentText), s)
      else
        var p := CommentedPlant(plant, logIndex, newComment, now, today);
        Reply(Ok(p), s[id := p])
  }

  /**
   * `deleteLog`: the owner removes the log at `logIndex`, which must lie in
   * `[0, |logs|)`; later logs shift down by one position.
   */
  function DeleteLog(s: Store, id: PlantId, logIndex: int, caller: string, today: EpochDay): (r: Reply<Plant>)
    ensures !Authorized(s, id, caller) ==> r == Reply(Err(AuthFailure(s, id, DeleteLogDenied)), s)
    ensures Authorized(s, id, caller) && logIndex < 0 ==> r == Reply(Err(BadLogIndex), s)
    ensures Authorized(s, id, caller) && logIndex >= 0 && s[id].logs.None? ==> r == Reply(Err(NullLogs), s)
    ensures Authorized(s, id, caller) && s[id].logs.Some? && !(0 <= logIndex < |s[id].logs.value|) ==>
      r == Reply(Err(BadLogIndex), s)
    ensures r.result.Ok? <==>
      Authorized(s, id, caller) && s[id].logs.Some? && 0 <= logIndex < |s[id].logs.value|
    ensures r.result.Ok? ==>
      var p, before := r.result.value, s[id].logs.value;
      && r.store == s[id := p]
      && p.logs.Some? && |p.logs.value| == |before| - 1
      && (forall j :: 0 <= j < logIndex ==> p.logs.value[j] == before[j])
      && (forall j :: logIndex <= j < |p.logs.value| ==> p.logs.value[j] == before[j + 1])
      // putting the removed entry back at its index restores the list
      && p.logs.value[..logIndex] + [before[logIndex]] + p.logs.value[logIndex..] == before
      && p.(id := s[id].id, logs := s[id].logs, overdue := s[id].overdue) == s[id]
      && p.overdue == ComputeOverdue(s[id].lastWateredDate, s[id].wateringFrequencyDays, today)
  {
    match LoadOwned(s, id, caller, today, DeleteLogDenied)
    case Err(f) => Reply(Err(f), s)
    case Ok(plant) =>
      // `logIndex < 0 || logIndex >= getLogs().size()` reads the list only for a non-negative index
      if logIndex < 0 then Reply(Err(BadLogIndex), s)
      else if plant.logs.None? then Reply(Err(NullLogs), s)
      else if logIndex >= |plant.logs.value| then Reply(Err(BadLogIndex), s)
      else
        var logs := plant.logs.value;
        var remaining := logs[..logIndex] + logs[logIndex + 1..];
        assert remaining[..logIndex] + [logs[logIndex]] + remaining[logIndex..] == logs;
        var p := SetOverdueFlag(plant.(logs := Some(remaining)), today);
        Reply(Ok(p), s[id := p])
  }

  /** `waterPlant`: the owner records a watering today, after which the plant is not overdue. */
  function WaterPlant(s: Store, id: PlantId, caller: string, today: EpochDay): (r: Reply<Plant>)
    ensures !Authorized(s, id, caller) ==> r == Reply(Err(AuthFailure(s, id, WaterDenied)), s)
    ensures Authorized(s, id, caller) ==> r.result.Ok?
    ensures r.result.Ok? ==>
      var p := r.result.value;
      && r.store == s[id := p]
      && p.lastWateredDate == Some(today)
      && !p.overdue
      && p.(id := s[id].id, lastWateredDate := s[id].lastWateredDate, overdue := s[id].overdue) == s[id]
  {
    match LoadOwned(s, id, caller, today, WaterDenied)
    case Err(f) => Reply(Err(f), s)
    case Ok(plant) =>
      var p := SetOverdueFlag(plant.(lastWateredDate := Some(today)), today);
      Reply(Ok(p), s[id := p])
  }
}

=== FILE: plant_store.dfy ===
/**
 * The document store behind `PlantRepository`, reduced to a finite map from
 * document id to record. Query derivation and id generation are the store's
 * business; the model keeps only what the engine relies on.
 */
module PlantStore {
  import opened Wrappers
  import opened PlantModel

  type PlantId = string

  /** The `plants` collection, keyed by document id. */
  type Store = map<PlantId, Plant>

  /** `findById`: the stored document, with its `id` field taken from the document key. */
  function FindById(s: Store, id: PlantId): (r: Option<Plant>)
  {
    if id in s then Some(s[id].(id := Some(id))) else None
  }

  /** `findByOwnerUsername`: the ids of the documents whose owner equals the given name. */
  function FindByOwnerUsername(s: Store, owner: string): (r: set<PlantId>)
  {
    set k | k in s && s[k].ownerUsername == Some(owner)
  }

  /** What `save` returns: the collection afterwards and the record as written. */
  datatype Saved = Saved(store: Store, plant: Plant)

  /**
   * `save`: a record that carries an id is written under that id, inserting
   * or replacing; a record without one is inserted under the fresh id the
   * store generates, which no document has yet.
   */
  function Save(s: Store, p: Plant, freshId: PlantId): (r: Saved)
    requires p.id.None? ==> freshId !in s
    ensures r.plant.id.Some? && r.store == s[r.plant.id.value := r.plant]
    ensures r.plant.(id := p.id) == p
    ensures p.id.Some? ==> r.plant.id == p.id
    ensures p.id.None? ==> r.plant.id.value !in s
  {
    var written := if p.id.Some? then p else p.(id := Some(freshId));
    Saved(s[written.id.value := written], written)
  }

  /**
   * After a save, looking up the id it wrote finds exactly the record as
   * written, and every other lookup finds what it found before.
   */
  lemma SaveThenFindById(s: Store, p: Plant, freshId: PlantId, k: PlantId)
    requires p.id.None? ==> freshId !in s
    ensures var saved := Save(s, p, freshId);
      && FindById(saved.store, saved.plant.id.value) == Some(saved.plant)
      && (k != saved.plant.id.value ==> FindById(saved.store, k) == FindById(s, k))
  {
  }

  /**
   * After a save, the owner query drops the written id from the owner it had
   * before and lists it under the owner it has now; no other id moves.
   */
  lemma SaveThenFindByOwner(s: Store, p: Plant, freshId: PlantId, owner: string)
    requires p.id.None? ==> freshId !in s
    ensures var saved := Save(s, p, freshId);
      var key := saved.plant.id.value;
      FindByOwnerUsername(saved.store, owner)
        == (FindByOwnerUsername(s, owner) - {key}) + (if p.ownerUsername == Some(owner) then {key} else {})
  {
  }

  /**
   * The shape every record written by the engine has: its id field agrees
   * with its key, it has a non-empty owner, and its logs list is not null.
   */
  predicate WellFormedPlant(id: PlantId, p: Plant) {
    && p.id == Some(id)
    && p.ownerUsername.Some? && |p.ownerUsername.value| > 0
    && p.logs.Some?
  }

  predicate WellFormed(s: Store) {
    forall k :: k in s ==> WellFormedPlant(k, s[k])
  }
}

=== FILE: service_properties.dfy ===
/**
 * Properties that relate several calls of the plant record engine, or hold
 * across all of its mutations.
 */
module ServiceProperties {
  import opened Wrappers
  import opened PlantModel
  import opened Overdue
  import opened PlantStore
  import opened PlantService

  // ---------------------------------------------------------------------
  // invariants, one operation at a time
  // ---------------------------------------------------------------------

  /**
   * `updatePlant` keeps every id with its owner; on a well-formed store it
   * keeps the store well formed and fails only with not-found or forbidden.
   */
  lemma UpdateKeepsInvariants(s: Store, id: PlantId, payload: Plant, caller: string, today: EpochDay)
    ensures var r := UpdatePlant(s, id, payload, caller, today);
      && SameOwners(s, r.store)
      && (WellFormed(s) ==> WellFormed(r.store))
      && (WellFormed(s) && r.result.Err? ==> r.result.failure.kind != ServerError)
  {
    var r := UpdatePlant(s, id, payload, caller, today);
    if r.result.Ok? {
      WriteBackKeepsOwners(s, id, r.result.value);
    }
  }

  /** `deletePlant` on a well-formed store leaves it well formed and fails only with not-found or forbidden. */
  lemma DeleteKeepsInvariants(s: Store, id: PlantId, caller: string, today: EpochDay)
    requires WellFormed(s)
    ensures var r := DeletePlant(s, id, caller, today);
      && WellFormed(r.store)
      && (r.result.Err? ==> r.result.failure.kind != ServerError)
  {
  }

  /** `addLogToPlant` keeps owners; on a well-formed store it keeps the shape and raises no server error. */
  lemma AddLogKeepsInvariants(s: Store, id: PlantId, newLog: PlantLog, caller: string, now: Instant, today: EpochDay)
    ensures var r := AddLogToPlant(s, id, newLog, caller, now, today);
      && SameOwners(s, r.store)
      && (WellFormed(s) ==> WellFormed(r.store))
      && (WellFormed(s) && r.result.Err? ==> r.result.failure.kind != ServerError)
  {
    var r := AddLogToPlant(s, id, newLog, caller, now, today);
    if r.result.Ok? {
      WriteBackKeepsOwners(s, id, r.result.value);
    }
  }

  /** `addCommentToLog` keeps owners; on a well-formed store it keeps the shape and raises no server error. */
  lemma AddCommentKeepsInvariants(
    s: Store, id: PlantId, logIndex: int, newComment: PlantComment, caller: string, now: Instant, today: EpochDay)
    ensures var r := AddCommentToLog(s, id, logIndex, newComment, caller, now, today);
      && SameOwners(s, r.store)
      && (WellFormed(s) ==> WellFormed(r.store))
      && (WellFormed(s) && r.result.Err? ==> r.result.failure.kind != ServerError)
  {
    var r := AddCommentToLog(s, id, logIndex, newComment, caller, now, today);
    if r.result.Ok? {
      WriteBackKeepsOwners(s, id, r.result.value);
    }
  }

  /** `deleteLog` keeps owners; on a well-formed store it keeps the shape and raises no server error. */
  lemma DeleteLogKeepsInvariants(s: Store, id: PlantId, logIndex: int, caller: string, today: EpochDay)
    ensures var r := DeleteLog(s, id, logIndex, caller, today);
      && SameOwners(s, r.store)
      && (WellFormed(s) ==> WellFormed(r.store))
      && (WellFormed(s) && r.result.Err? ==> r.result.failure.kind != ServerError)
  {
    var r := DeleteLog(s, id, logIndex, caller, today);
    if r.result.Ok? {
      WriteBackKeepsOwners(s, id, r.result.value);
    }
  }

  /** `waterPlant` keeps owners; on a well-formed store it keeps the shape and raises no server error. */
  lemma WaterKeepsInvariants(s: Store, id: PlantId, caller: string, today: EpochDay)
    ensures var r := WaterPlant(s, id, caller, today);
      && SameOwners(s, r.store)
      && (WellFormed(s) ==> WellFormed(r.store))
      && (WellFormed(s) && r.result.Err? ==> r.result.failure.kind != ServerError)
  {
    var r := WaterPlant(s, id, caller, today);
    if r.result.Ok? {
      WriteBackKeepsOwners(s, id, r.result.value);
    }
  }

  // ---------------------------------------------------------------------
  // invariants across all operations
  // ---------------------------------------------------------------------

  /** Every mutation keeps the store well formed; in particular no record ever loses its owner. */
  lemma MutationsPreserveWellFormed(
    s: Store, id: PlantId, caller: string, payload: Plant, newLog: PlantLog,
    newComment: PlantComment, logIndex: int, now: Instant, today: EpochDay)
    requires WellFormed(s)
    ensures WellFormed(UpdatePlant(s, id, payload, caller, today).store)
    ensures WellFormed(DeletePlant(s, id, caller, today).store)
    ensures WellFormed(AddLogToPlant(s, id, newLog, caller, now, today).store)
    ensures WellFormed(AddCommentToLog(s, id, logIndex, newComment, caller, now, today).store)
    ensures WellFormed(DeleteLog(s, id, logIndex, caller, today).store)
    ensures WellFormed(WaterPlant(s, id, caller, today).store)
  {
    UpdateKeepsInvariants(s, id, payload, caller, today);
    DeleteKeepsInvariants(s, id, caller, today);
    AddLogKeepsInvariants(s, id, newLog, caller, now, today);
    AddCommentKeepsInvariants(s, id, logIndex, newComment, caller, now, today);
    DeleteLogKeepsInvariants(s, id, logIndex, caller, today);
    WaterKeepsInvariants(s, id, caller, today);
  }

  /** Creating a plant keeps the store well formed. */
  lemma AddPlantPreservesWellFormed(s: Store, plant: Plant, today: EpochDay, freshId: PlantId)
    requires WellFormed(s)
    requires plant.id.None? ==> freshId !in s
    ensures WellFormed(AddPlant(s, plant, today, freshId).store)
  {
  }

  /**
   * On a well-formed store no mutation dereferences a null owner or a null
   * logs list: every failure is a not-found, forbidden or invalid-input one.
   */
  lemma WellFormedStoreRaisesNoServerError(
    s: Store, id: PlantId, caller: string, payload: Plant, newLog: PlantLog,
    newComment: PlantComment, logIndex: int, now: Instant, today: EpochDay)
    requires WellFormed(s)
    ensures UpdatePlant(s, id, payload, caller, today).result.Err? ==>
      UpdatePlant(s, id, payload, caller, today).result.failure.kind != ServerError
    ensures DeletePlant(s, id, caller, today).result.Err? ==>
      DeletePlant(s, id, caller, today).result.failure.kind != ServerError
    ensures AddLogToPlant(s, id, newLog, caller, now, today).result.Err? ==>
      AddLogToPlant(s, id, newLog, caller, now, today).result.failure.kind != ServerError
    ensures AddCommentToLog(s, id, logIndex, newComment, caller, now, today).result.Err? ==>
      AddCommentToLog(s, id, logIndex, newComment, caller, now, today).result.failure.kind != ServerError
    ensures DeleteLog(s, id, logIndex, caller, today).result.Err? ==>
      DeleteLog(s, id, logIndex, caller, today).result.failure.kind != ServerError
    ensures WaterPlant(s, id, caller, today).result.Err? ==>
      WaterPlant(s, id, caller, today).result.failure.kind != ServerError
  {
    UpdateKeepsInvariants(s, id, payload, caller, today);
    DeleteKeepsInvariants(s, id, caller, today);
    AddLogKeepsInvariants(s, id, newLog, caller, now, today);
    AddCommentKeepsInvariants(s, id, logIndex, newComment, caller, now, today);
    DeleteLogKeepsInvariants(s, id, logIndex, caller, today);
    WaterKeepsInvariants(s, id, caller, today);
  }

  /** Records keep their owner, and no record appears or disappears, under the non-deleting mutations. */
  lemma OwnershipIsImmutable(
    s: Store, id: PlantId, caller: string, payload: Plant, newLog: PlantLog,
    newComment: PlantComment, logIndex: int, now: Instant, today: EpochDay)
    ensures SameOwners(s, UpdatePlant(s, id, payload, caller, today).store)
    ensures SameOwners(s, AddLogToPlant(s, id, newLog, caller, now, today).store)
    ensures SameOwners(s, AddCommentToLog(s, id, logIndex, newComment, caller, now, today).store)
    ensures SameOwners(s, DeleteLog(s, id, logIndex, caller, today).store)
    ensures SameOwners(s, WaterPlant(s, id, caller, today).store)
  {
    UpdateKeepsInvariants(s, id, payload, caller, today);
    AddLogKeepsInvariants(s, id, newLog, caller, now, today);
    AddCommentKeepsInvariants(s, id, logIndex, newComment, caller, now, today);
    DeleteLogKeepsInvariants(s, id, logIndex, caller, today);
    WaterKeepsInvariants(s, id, caller, today);
  }

  /** Writing a record back under an existing id with the same owner keeps every owner. */
  lemma WriteBackKeepsOwners(s: Store, id: PlantId, p: Plant)
    requires id in s && p.ownerUsername == s[id].ownerUsername
    ensures SameOwners(s, s[id := p])
  {
  }

  /** The two stores hold the same ids, each with the same owner. */
  predicate SameOwners(before: Store, after: Store) {
    && after.Keys == before.Keys
    && forall k :: k in after ==> after[k].ownerUsername == before[k].ownerUsername
  }

  /** Repeating an update with the same payload on the same day changes nothing further. */
  lemma UpdateIsIdempotent(s: Store, id: PlantId, payload: Plant, caller: string, today: EpochDay)
    ensures var first := UpdatePlant(s, id, payload, caller, today);
      UpdatePlant(first.store, id, payload, caller, today) == first
  {
  }

  /** Watering twice on the same day has the effect of watering once. */
  lemma WaterIsIdempotent(s: Store, id: PlantId, caller: string, today: EpochDay)
    ensures var first := WaterPlant(s, id, caller, today);
      WaterPlant(first.store, id, caller, today) == first
  {
  }

  /**
   * Deleting the log just appended, at the index it was appended at,
   * restores the plant's log list.
   */
  lemma DeletingAppendedLogRestoresLogs(
    s: Store, id: PlantId, newLog: PlantLog, caller: string, now: Instant, today: EpochDay)
    requires AddLogToPlant(s, id, newLog, caller, now, today).result.Ok?
    ensures var added := AddLogToPlant(s, id, newLog, caller, now, today);
      var removed := DeleteLog(added.store, id, |OrEmpty(s[id].logs)|, caller, today);
      && removed.result.Ok?
      && removed.result.value.logs == Some(OrEmpty(s[id].logs))
      && removed.result.value == GetPlantById(s, id, today).value.(logs := Some(OrEmpty(s[id].logs)))
  {
    var added := AddLogToPlant(s, id, newLog, caller, now, today);
    var before := OrEmpty(s[id].logs);
    var after := added.result.value.logs.value;
    assert after[..|before|] == before;
    var removed := DeleteLog(added.store, id, |before|, caller, today);
    var left := removed.result.value.logs.value;
    assert |left| == |before|;
    assert forall j :: 0 <= j < |before| ==> left[j] == before[j];
    assert left == before;
  }

  /**
   * Commenting touches nothing but the addressed log: the commented plant is
   * the plant as loaded with that one log replaced, and deleting that log
   * afterwards has the same outcome as deleting it without the comment.
   */
  lemma DeletingCommentedLogForgetsComment(
    s: Store, id: PlantId, logIndex: int, newComment: PlantComment, caller: string, now: Instant, today: EpochDay)
    requires AddCommentToLog(s, id, logIndex, newComment, caller, now, today).result.Ok?
    ensures var commented := AddCommentToLog(s, id, logIndex, newComment, caller, now, today);
      var p, before := commented.result.value, s[id].logs.value;
      p == GetPlantById(s, id, today).value.(logs := Some(before[logIndex := p.logs.value[logIndex]]))
    ensures var commented := AddCommentToLog(s, id, logIndex, newComment, caller, now, today);
      DeleteLog(commented.store, id, logIndex, caller, today) == DeleteLog(s, id, logIndex, caller, today)
  {
  }

  /**
   * A payload that carries the id of an existing record replaces that record,
   * owner included, whoever owned it before: `addPlant` does no ownership check.
   */
  lemma AddPlantWithTakenIdReplacesRecord(s: Store, plant: Plant, today: EpochDay, freshId: PlantId)
    requires plant.id.Some? && plant.id.value in s
    requires plant.ownerUsername.Some? && plant.ownerUsername.value != ""
    ensures var r := AddPlant(s, plant, today, freshId);
      && r.result.Ok?
      && r.store.Keys == s.Keys
      && r.store[plant.id.value].ownerUsername == plant.ownerUsername
  {
  }

  /**
   * Owner "A" creates a plant; "B" may not update it, while "A" may.
   */
  lemma OnlyOwnerMayUpdate(s: Store, plant: Plant, payload: Plant, today: EpochDay, freshId: PlantId)
    requires plant.id.None? && freshId !in s
    requires plant.ownerUsername == Some("A")
    ensures var created := AddPlant(s, plant, today, freshId);
      var pid := created.result.value.id.value;
      && UpdatePlant(created.store, pid, payload, "B", today).result == Err(Failure(Forbidden, UpdateDenied))
      && UpdatePlant(created.store, pid, payload, "A", today).result.Ok?
  {
  }
}

=== FILE: upload_keys.dfy ===
/**
 * The object-storage keys the upload endpoints build:
 * `plants/<id>/<millis>-<filename>` for a plant image and
 * `plants/<id>/logs/<millis>-<filename>` for a log photo.
 * Decoding is the partner that shows the keys carry their parts unambiguously.
 */
module UploadKeys {
  import opened Wrappers
  import opened JavaText

  datatype UploadKey =
    | PlantImageKey(plantId: string, millis: int, filename: string)
    | LogPhotoKey(plantId: string, millis: int, filename: string)

  /** The key string, built by concatenation exactly as the controller does. */
  function EncodeKey(k: UploadKey): (r: string)
    ensures |r| > 7 && r[..7] == "plants/"
  {
    match k
    case PlantImageKey(id, millis, filename) =>
      "plants/" + id + "/" + DecimalString(millis) + "-" + filename
    case LogPhotoKey(id, millis, filename) =>
      "plants/" + id + "/logs/" + DecimalString(millis) + "-" + filename
  }

  /**
   * Reads a key back: the id runs up to the first '/' after "plants/", a
   * "logs/" segment marks a log photo, then come the rendered millis, a '-'
   * and the filename.
   */
  function DecodeKey(key: string): (r: Option<UploadKey>)
    ensures r.Some? ==> |key| > 7 && key[..7] == "plants/" && '/' !in r.value.plantId
  {
    if |key| < 7 || key[..7] != "plants/" then None
    else
      var rest := key[7..];
      match IndexOf(rest, '/')
      case None => None
      case Some(j) => DecodeAfterId(rest[..j], rest[j + 1..])
  }

  /** The part of a key after `plants/<id>/`. */
  function DecodeAfterId(id: string, tail: string): (r: Option<UploadKey>)
    ensures r.Some? ==> r.value.plantId == id
    ensures r.Some? ==> (r.value.LogPhotoKey? <==> |tail| >= 5 && tail[..5] == "logs/")
  {
    if |tail| >= 5 && tail[..5] == "logs/" then
      match ParseLongThenDash(tail[5..])
      case None => None
      case Some(stamp) => Some(LogPhotoKey(id, stamp.0, stamp.1))
    else
      match ParseLongThenDash(tail)
      case None => None
      case Some(stamp) => Some(PlantImageKey(id, stamp.0, stamp.1))
  }

  /** The id of a key is delimited by the first '/' after the root segment. */
  lemma DecodeSplitsAtId(id: string, tail: string)
    requires '/' !in id
    ensures DecodeKey("plants/" + id + "/" + tail) == DecodeAfterId(id, tail)
  {
    var key := "plants/" + id + "/" + tail;
    assert key == "plants/" + (id + ['/'] + tail);
    assert key[..7] == "plants/";
    var rest := key[7..];
    assert rest == id + ['/'] + tail;
    IndexOfAfterPrefix(id, '/', tail);
    assert rest[..|id|] == id;
    assert rest[|id| + 1..] == tail;
  }

  /** The log-photo tail parses back to its millis and filename. */
  lemma DecodeLogPhotoTail(id: string, millis: int, filename: string)
    ensures DecodeAfterId(id, "logs/" + DecimalString(millis) + "-" + filename)
      == Some(LogPhotoKey(id, millis, filename))
  {
    var stamp := DecimalString(millis) + "-" + filename;
    var tail := "logs/" + DecimalString(millis) + "-" + filename;
    assert tail == "logs/" + stamp;
    assert tail[..5] == "logs/";
    assert tail[5..] == stamp;
    ParseLongThenDashRoundTrip(millis, filename);
  }

  /** The plant-image tail starts with a sign or digit, so it is not mistaken for a log photo. */
  lemma DecodePlantImageTail(id: string, millis: int, filename: string)
    ensures DecodeAfterId(id, DecimalString(millis) + "-" + filename)
      == Some(PlantImageKey(id, millis, filename))
  {
    var stamp := DecimalString(millis) + "-" + filename;
    assert stamp[0] == DecimalString(millis)[0];
    assert stamp[0] == '-' || IsDigit(stamp[0]);
    if |stamp| >= 5 {
      assert stamp[..5][0] != "logs/"[0];
    }
    assert !(|stamp| >= 5 && stamp[..5] == "logs/");
    ParseLongThenDashRoundTrip(millis, filename);
  }

  /** A key read back yields the id, millis and filename it was built from, when the id has no '/'. */
  lemma DecodeEncode(k: UploadKey)
    requires '/' !in k.plantId
    ensures DecodeKey(EncodeKey(k)) == Some(k)
  {
    match k
    case LogPhotoKey(id, millis, filename) =>
      var tail := "logs/" + DecimalString(millis) + "-" + filename;
      assert EncodeKey(k) == "plants/" + id + "/" + tail;
      DecodeSplitsAtId(id, tail);
      DecodeLogPhotoTail(id, millis, filename);
    case PlantImageKey(id, millis, filename) =>
      var tail := DecimalString(millis) + "-" + filename;
      assert EncodeKey(k) == "plants/" + id + "/" + tail;
      DecodeSplitsAtId(id, tail);
      DecodePlantImageTail(id, millis, filename);
  }

  /** Distinct uploads get distinct keys, when ids have no '/'. */
  lemma EncodeKeyIsInjective(k1: UploadKey, k2: UploadKey)
    requires '/' !in k1.plantId && '/' !in k2.plantId
    requires EncodeKey(k1) == EncodeKey(k2)
    ensures k1 == k2
  {
    DecodeEncode(k1);
    DecodeEncode(k2);
  }

  /** With a '/' in the id, a plant-image key can coincide with a log-photo key of another id. */
  lemma SlashInIdMakesKeysCollide()
    ensures EncodeKey(PlantImageKey("p/logs", 7, "a.jpg")) == EncodeKey(LogPhotoKey("p", 7, "a.jpg"))
  {
  }
}

=== FILE: user_controller.dfy ===
/**
 * Registration and login against the users collection, reduced to a map
 * from username to the record's username and password. Passwords are
 * compared as plain text; this is not an authentication design.
 */
module UserController {
  import opened Wrappers

  /** The two fields of a user record the controller reads; a null password is `None`. */
  datatype User = User(username: string, password: Option<string>)

  /** The users collection, looked up by username. */
  type UserStore = map<string, User>

  /** Every record is filed under its own username. */
  predicate WellFormed(users: UserStore) {
    forall name :: name in users ==> users[name].username == name
  }

  const UsernameTaken := Failure(InvalidInput, "Username already exists")
  const BadCredentials := Failure(Forbidden, "Invalid username or password")
  /** `getPassword().equals(..)` on a stored record whose password is null. */
  const NullPassword := Failure(ServerError, "NullPointerException")

  /** What `register` returns or throws, and the users collection afterwards. */
  datatype Registration = Registration(result: Result<User>, users: UserStore)

  /**
   * `register`: a taken username is refused and nothing is written; a fresh
   * one is saved as given and returned.
   */
  function Register(users: UserStore, user: User): (r: Registration)
    ensures user.username in users ==> r == Registration(Err(UsernameTaken), users)
    ensures user.username !in users ==>
      && r.result == Ok(user)
      && r.users.Keys == users.Keys + {user.username}
      && r.users[user.username] == user
      && forall name :: name in users ==> r.users[name] == users[name]
  {
    if user.username in users then Registration(Err(UsernameTaken), users)
    else Registration(Ok(user), users[user.username := user])
  }

  /**
   * `login`: succeeds with the stored record exactly when the username is
   * known and its stored password equals the supplied one. An unknown name
   * and a wrong password fail identically. The result type carries no store:
   * login writes nothing.
   */
  function Login(users: UserStore, user: User): (r: Result<User>)
    ensures r.Ok? <==>
      user.username in users && users[user.username].password.Some?
      && users[user.username].password == user.password
    ensures r.Ok? ==> r.value == users[user.username]
    ensures user.username !in users ==> r == Err(BadCredentials)
    ensures
      && user.username in users && users[user.username].password.Some?
      && users[user.username].password != user.password
      ==> r == Err(BadCredentials)
    ensures user.username in users && users[user.username].password.None? ==> r == Err(NullPassword)
  {
    if user.username !in users then Err(BadCredentials)
    else
      var existing := users[user.username];
      if existing.password.None? then Err(NullPassword)
      else if existing.password != user.password then Err(BadCredentials)
      else Ok(existing)
  }

  /** Registering keeps every record filed under its own username. */
  lemma RegisterPreservesWellFormed(users: UserStore, user: User)
    requires WellFormed(users)
    ensures WellFormed(Register(users, user).users)
  {
  }

  /** A user who has just registered with a password can log in with it, and gets the record back. */
  lemma RegisterThenLogin(users: UserStore, user: User)
    requires user.username !in users && user.password.Some?
    ensures var after := Register(users, user).users;
      Login(after, user) == Ok(user)
  {
  }

  /** On a well-formed store a successful login returns the record of the name that was supplied. */
  lemma LoginReturnsOwnRecord(users: UserStore, user: User)
    requires WellFormed(users)
    requires Login(users, user).Ok?
    ensures Login(users, user).value.username == user.username
  {
  }
}

=== FILE: wrappers.dfy ===
/** Failure-carrying wrappers shared by every module of the model. */
module Wrappers {

  /** `None` stands for a Java `null` reference (or an absent optional value). */
  datatype Option<+T> = None | Some(value: T)

  /** The kinds of failure the engine raises; their mapping to HTTP status codes is not modelled. */
  datatype ErrorKind = NotFound | Forbidden | InvalidInput | ServerError

  /** A raised exception: its kind and the message the code attaches to it. */
  datatype Failure = Failure(kind: ErrorKind, message: string)

  /** The outcome of an operation that either returns a value or throws. */
  datatype Result<+T> = Ok(value: T) | Err(failure: Failure)
}
